=== FILE: README.md ===
# Chat client core, modelled in Dafny

A model of the logic of a browser chat client. The client has sign-in and sign-up forms, a chat transcript, a message composer with history, and a transcript export. All of its "backend" is mocked on the client with timers and random values. What is modelled:

- **Chat session** (`ChatContext`). The state is the message log, the `isTyping` flag, and the multiset of prompts whose reply timers are still running.
  - `sendMessage` appends the user message, switches typing on and starts a timer.
  - `Deliver` fires any one running timer. It switches typing off and appends the routed bot reply.
  - `simulateBotResponse` is the pure keyword router `Respond`: greeting, then help, then weather, else an echo of the input.
- **Composer** (`ChatInput`). A state machine over the draft, the newest-first history (capped at 50) and the browsing index. It covers send, the arrow keys, the history buttons, voice transcripts and templates.
- **Chat page** (`ChatPage`). The composer is wired to the session with `disabled = isTyping`. The model proves that under this wiring at most one reply is ever pending, and that typing is on exactly while one is.
- **Session store** (`AuthContext`). It covers restore on mount, login, register and logout over `localStorage`, which is modelled as a `map<string, string>`.
- **Forms** (`LoginForm`, `RegisterForm`). Each is a validation chain that either reports an error or calls the store, plus the mapping from the store's result to an error message.
- **Export** (`ChatExport`). The text transcript is `[time] Bot|You: text` lines joined by newlines, plus the download file names and the empty-log guard. `ParseLine`/`ParseTranscript` are a reference reader that the client does not contain. They exist to state that the text export loses nothing when no message text contains a newline and no formatted time contains ']' or a newline. A multi-line message, which Shift+Enter lets through, makes the transcript ambiguous (`ChatExport.MultilineCollides`).
- **Strings** and **Wrappers**. `Strings` models `includes`, `toLowerCase`, `trim`, `split` and `join`. `Wrappers` holds `Option`.

Randomness (message ids, token and user-id suffixes, the reply-pool index) and clocks (timestamps, the ISO date) are parameters. So are the serialisers: `JSON.stringify`/`JSON.parse` of a user are `encode`/`decode`, `toLocaleString` is `fmt`, and `JSON.stringify` of the log is `encodeLog`.

Two points about the code that the model follows closely:
- `sendMessage` itself accepts blank text and sends while a reply is pending. The blank-draft and `disabled` checks live in the composer, and `ChatPage` passes `isTyping` as `disabled`, so "at most one reply in flight" is proved for the page (`ChatPage.RunPreservesInv`). `ChatContext.OverlappingSends` shows the session alone does not enforce it.
- Restoring the session requires both stored values to be non-empty, not only present: an empty string is falsy in the `token && userData` test.

## Model

| member | source | states |
|---|---|---|
| ChatContext.Init | src/contexts/ChatContext.tsx:35-43 | the session starts with exactly one bot message with id "1" and the welcome text, typing off and no reply pending |
| ChatContext.AddMessage | src/contexts/ChatContext.tsx:45-53 | exactly one message is appended at the end with the given text, speaker, id and time; earlier messages, typing and pending replies are unchanged |
| ChatContext.ClearMessages | src/contexts/ChatContext.tsx:55-57 | the log becomes empty; typing and the running reply timers are untouched |
| ChatContext.EchoReply | src/contexts/ChatContext.tsx:85-86 | the fallback reply starts with the chosen pool entry and contains the original, not lower-cased, user input |
| ChatContext.Respond | src/contexts/ChatContext.tsx:59-87 | greeting when the lower-cased input contains "hello" or "hi"; otherwise help text for "help"; otherwise weather text for "weather"; otherwise a reply that starts with the chosen pool entry and contains the input |
| ChatContext.Mentions | src/contexts/ChatContext.tsx:73-81 | definition of the keyword test `userMessage.toLowerCase().includes(keyword)`; its meaning, a window of the input equal to the keyword after lower-casing each character, is fixed by ChatContext.MentionsIff |
| ChatContext.IsGreeting | src/contexts/ChatContext.tsx:73 | definition of the greeting test: the input mentions "hello" or "hi"; ChatContext.GreetingHasPriority and ChatContext.SubstringGreeting pin it down on concrete inputs |
| ChatContext.SendMessage | src/contexts/ChatContext.tsx:89-96 | the text, even an empty one, is appended as a user message, typing becomes true and one more reply for that text is pending |
| ChatContext.Deliver | src/contexts/ChatContext.tsx:97-101 | a pending reply firing removes one copy of its prompt from the pending replies, turns typing off even if other replies are pending, and appends one bot message carrying the routed reply |
| ChatContext.MentionsIgnoresCase | src/contexts/ChatContext.tsx:73-83 | the keyword tests give the same answer for an input and its lower-cased form |
| ChatContext.RoutingIgnoresCase | src/contexts/ChatContext.tsx:73-83 | inputs that differ only in the case of ASCII letters mention the same keywords and get the same canned reply |
| ChatContext.MentionsIff | src/contexts/ChatContext.tsx:73-83 | a keyword is mentioned exactly when some window of the input equals it after lower-casing each character |
| ChatContext.GreetingHasPriority | src/contexts/ChatContext.tsx:73-75 | "hi, weather?" and "HELLO, can you help?" both get the greeting, because that keyword is checked before help and weather |
| ChatContext.SubstringGreeting | src/contexts/ChatContext.tsx:73 | "hi" is matched as a substring, so "Weather this week?" gets the greeting |
| ChatContext.SendThenDeliver | src/contexts/ChatContext.tsx:89-101 | with no reply pending, a send followed by its reply grows the log by exactly two: the user's text, then the bot's reply to it, with typing off and nothing pending |
| ChatContext.HelloScenario | src/contexts/ChatContext.tsx:35-101 | mount, send "hi", let the reply arrive: the log is welcome, "hi", greeting, with typing off |
| ChatContext.ClearDoesNotCancel | src/contexts/ChatContext.tsx:97-101 | a reply that fires after the log was cleared becomes the only message |
| ChatContext.OverlappingSends | src/contexts/ChatContext.tsx:89-101 | after two sends and one reply, typing is off although the other reply is still pending |
| ChatInput.Send | src/components/chat/ChatInput.tsx:19-26 | a blank draft or a disabled composer changes nothing and sends nothing; otherwise the untrimmed draft is sent and put first in the history, which keeps the older entries in order up to 50 in all, and the draft and index are reset |
| ChatInput.Push | src/components/chat/ChatInput.tsx:23 | the new history has the sent text first, then the old entries in order, with at most 50 entries |
| ChatInput.Older | src/components/chat/ChatInput.tsx:32-36 | the index becomes min(index+1, last), the draft becomes that entry, and the history is kept |
| ChatInput.Newer | src/components/chat/ChatInput.tsx:37-41 | the index becomes max(index-1, -1); the draft becomes empty at -1 and that entry otherwise |
| ChatInput.Replace | src/components/chat/ChatInput.tsx:45-54 | voice transcripts and templates replace the draft only; history and index are unchanged |
| ChatInput.OnKey | src/components/chat/ChatInput.tsx:28-43 | an unshifted Enter is a send; ArrowUp moves to an older entry when the history is non-empty and does nothing when it is empty; ArrowDown moves to a newer entry; a shifted Enter or any other key changes nothing; only an unshifted Enter can send |
| ChatInput.ClickUp | src/components/chat/ChatInput.tsx:85-97 | the up button does what ArrowUp does when it is shown and enabled, and nothing otherwise |
| ChatInput.ClickDown | src/components/chat/ChatInput.tsx:98-108 | the down button does what ArrowDown does when it is shown and the index is above 0, and nothing otherwise |
| ChatInput.Handle | src/components/chat/ChatInput.tsx:64-125 | every user action keeps -1 <= index <= last and at most 50 entries; the Send button and an unshifted Enter run the send guard and send the draft exactly when it is non-blank and the composer enabled; the history buttons, arrow keys, typing, voice transcripts and templates each perform their own transition and send nothing |
| ChatInput.InitialValid | src/components/chat/ChatInput.tsx:14-16 | the composer mounts with an empty draft, empty history and index -1, which satisfies the invariant |
| ChatInput.SendPreservesValid | src/components/chat/ChatInput.tsx:23-25 | sending keeps the history bounded and the index in range |
| ChatInput.DisabledNeverSends | src/components/chat/ChatInput.tsx:20 | a disabled composer sends nothing, for every sequence of user actions |
| ChatInput.PressUpReaches | src/components/chat/ChatInput.tsx:32-36 | n presses of ArrowUp reach index min(index+n, last) and show that entry |
| ChatInput.UpRecallsLastSent | src/components/chat/ChatInput.tsx:19-36 | right after a send, ArrowUp recalls exactly the text that was sent, at index 0 |
| ChatInput.UpThenDown | src/components/chat/ChatInput.tsx:32-41 | ArrowUp then ArrowDown returns to the same index, but from -1 it leaves an empty draft, so an unsent draft is lost |
| ChatInput.DownDiscardsDraft | src/components/chat/ChatInput.tsx:37-41 | ArrowDown while not browsing empties the draft and changes nothing else |
| ChatInput.ButtonsMatchKeys | src/components/chat/ChatInput.tsx:88-103 | when the buttons can be clicked, they perform the same transitions as ArrowUp and ArrowDown |
| ChatInput.DownButtonKeepsBrowsing | src/components/chat/ChatInput.tsx:98-108 | unlike ArrowDown, the down button never brings the index back to -1 |
| ChatPage.Step | src/pages/ChatPage.tsx:8-14 | a user action goes to the composer with `disabled = isTyping` and reaches the session only as `sendMessage` of the sent draft, so nothing reaches it while typing; a reply fires only for a pending prompt; a confirmed clear empties the log only, an unconfirmed one changes nothing |
| ChatPage.StepPreservesInv | src/pages/ChatPage.tsx:14 | with the composer disabled while typing, every event keeps at most one reply pending and typing on exactly while one is |
| ChatPage.RunPreservesInv | src/pages/ChatPage.tsx:14 | the same holds after every sequence of user actions, replies and clears |
| ChatPage.StartInv | src/contexts/ChatContext.tsx:35-43 | the mounted page satisfies the invariant |
| ChatPage.ReplyEndsCycle | src/contexts/ChatContext.tsx:97-101 | on the page, a reply leaves nothing pending and the composer enabled again |
| ChatPage.SendReachesSession | src/components/chat/ChatInput.tsx:19-31 | with no reply in flight, the Send button (line 119) and an unshifted Enter hand a non-blank draft to `sendMessage` (ChatPage.tsx:14), leaving one reply pending, typing on and the draft empty; a blank draft changes nothing |
| Strings.ContainsIff | src/contexts/ChatContext.tsx:73 | `includes` finds a substring exactly when it occurs at some position |
| Strings.Contains | src/contexts/ChatContext.tsx:73 | definition of `includes` as a left-to-right scan of start positions; Strings.ContainsIff proves it finds exactly the substrings that occur at some index |
| Strings.LowerChar | src/contexts/ChatContext.tsx:73 | each ASCII capital maps to its small letter (code point + 32), every other character is unchanged, and no ASCII capital is left |
| Strings.ContainsLoweredIff | src/contexts/ChatContext.tsx:73 | `toLowerCase().includes(k)` holds exactly when some window of the input matches k character by character after lower-casing |
| Strings.ToLower | src/contexts/ChatContext.tsx:73 | `toLowerCase` keeps the length and lower-cases each character |
| Strings.TrimStart | src/components/chat/ChatInput.tsx:20 | the result is the suffix left after a whitespace-only prefix and does not start with whitespace |
| Strings.TrimEnd | src/components/chat/ChatInput.tsx:20 | the result is the prefix before a whitespace-only suffix and does not end with whitespace |
| Strings.Trim | src/components/chat/ChatInput.tsx:20 | the trimmed draft is empty exactly when the draft is whitespace only; otherwise it starts and ends with non-whitespace |
| Strings.BeforeFirst | src/contexts/AuthContext.tsx:62 | `split(c)[0]` is the longest prefix without `c`: it stops at the first `c`, or is the whole string when there is none |
| Strings.SplitJoin | src/components/chat/ChatExport.tsx:11-13 | splitting a newline-joined list gives the list back when no element contains a newline |
| Strings.Join | src/components/chat/ChatExport.tsx:13 | definition of `join(sep)`: the pieces in order with one separator between neighbours and none at the ends; Strings.SplitJoin proves `split` undoes it for pieces without the separator |
| AuthContext.NameFromEmail | src/contexts/AuthContext.tsx:62 | the display name is the email up to the first '@', or the whole email when it has none |
| AuthContext.Restore | src/contexts/AuthContext.tsx:35-50 | with both keys non-empty, a user that decodes is restored and one that does not has both keys removed and no user; otherwise nothing changes; loading always ends |
| AuthContext.SignIn | src/contexts/AuthContext.tsx:65-71 | the token is stored with the `mock_jwt_token_` prefix, the user is stored serialised and set in memory, and every other storage key is untouched |
| AuthContext.Login | src/contexts/AuthContext.tsx:52-79 | succeeds exactly when email and password are non-empty, signing in a user with that email and the derived name; on failure user and storage are unchanged and loading is false |
| AuthContext.Register | src/contexts/AuthContext.tsx:81-108 | succeeds exactly when name, email and password are non-empty, signing in a user with exactly that name and email; on failure nothing changes but loading ends |
| AuthContext.Logout | src/contexts/AuthContext.tsx:110-114 | removes exactly the two session keys, keeps every other key and value, and forgets the user |
| AuthContext.LoginThenRestore | src/contexts/AuthContext.tsx:37-72 | if the serialiser round-trips, a reload after a successful login restores the same user, with the same email |
| AuthContext.RegisterThenRestore | src/contexts/AuthContext.tsx:37-101 | if the serialiser round-trips, a reload after registering restores the registered user |
| AuthContext.LogoutThenRestore | src/contexts/AuthContext.tsx:110-114 | a reload after logout finds no user |
| AuthContext.RestoreConsistent | src/contexts/AuthContext.tsx:37-49 | restoring from storage where token and user are both stored or both absent never leaves a user without both keys |
| AuthContext.ApplyAllConsistent | src/contexts/AuthContext.tsx:58-114 | every sequence of logins, registrations and logouts keeps token and user stored together, and keeps a user in memory only while both are stored |
| AuthContext.NameExamples | src/contexts/AuthContext.tsx:62 | "a@b.com" gives "a", "alice" gives "alice", "@host" gives the empty name |
| LoginForm.Validate | src/components/auth/LoginForm.tsx:21-26 | an empty email or password gives 'Please fill in all fields'; otherwise login is called with exactly the entered values |
| LoginForm.ResultError | src/components/auth/LoginForm.tsx:27-31 | no error exactly when login succeeded, and 'Invalid email or password' when it failed |
| LoginForm.Submit | src/components/auth/LoginForm.tsx:17-32 | the old error never survives; the fill-fields error appears exactly for an empty field and leaves the store untouched; with both fields filled, the store, the navigation and the error are those of `login`'s result; the form navigates exactly when no error is shown |
| LoginForm.FormLoginSucceeds | src/components/auth/LoginForm.tsx:21-26 | since the form checks what the store checks, 'Invalid email or password' is never shown and a passing submit signs in that email |
| RegisterForm.Validate | src/components/auth/RegisterForm.tsx:24-39 | register is called exactly for four filled fields, matching passwords and a password of at least 6 characters; each error message appears exactly under its own condition, in `handleSubmit`'s priority |
| RegisterForm.ResultError | src/components/auth/RegisterForm.tsx:40-44 | no error exactly when registration succeeded, and 'Registration failed. Please try again.' when it failed |
| RegisterForm.Submit | src/components/auth/RegisterForm.tsx:20-45 | a rejected submit shows the validation chain's message, does not navigate and leaves the store untouched; a passing submit leaves the store, the navigation and the error of `register`'s result; no error only when validation passed |
| RegisterForm.MismatchBeforeLength | src/components/auth/RegisterForm.tsx:29-37 | a password mismatch is reported before the length check |
| RegisterForm.FormRegisterSucceeds | src/components/auth/RegisterForm.tsx:39-44 | 'Registration failed' is never shown, and a passing submit stores exactly the given name and email |
| ChatExport.Label | src/components/chat/ChatExport.tsx:12 | the speaker is 'Bot' exactly for bot messages and 'You' exactly for the others |
| ChatExport.Line | src/components/chat/ChatExport.tsx:12 | definition of the template literal `[time] Bot|You: text`; ChatExport.ParseLineOfLine proves the line reads back as its formatted time, speaker and verbatim text when the formatted time has no ']' |
| ChatExport.Lines | src/components/chat/ChatExport.tsx:11-12 | one line per message, in log order |
| ChatExport.TranscriptText | src/components/chat/ChatExport.tsx:11-13 | definition of the export content, the lines joined by newlines; ChatExport.TranscriptRoundTrip proves it reads back as the log when no text contains a newline and no formatted time contains a newline or ']' |
| ChatExport.ParseShape | src/components/chat/ChatExport.tsx:12 | a line `[t] Bot: x` or `[t] You: x` reads back as t, the speaker and x verbatim, whenever t has no ']' |
| ChatExport.ParseLineOfLine | src/components/chat/ChatExport.tsx:12 | each exported line reads back as its message's formatted time, speaker and unescaped text when the formatted time has no ']' |
| ChatExport.TranscriptRoundTrip | src/components/chat/ChatExport.tsx:11-13 | a non-empty log whose texts have no newline and whose formatted times contain neither a newline nor ']' exports to text that reads back line by line as the log, in order, with nothing extra |
| ChatExport.ShortTranscripts | src/components/chat/ChatExport.tsx:11-13 | one message gives its line with no separator; two give two lines and a single newline, with no trailing newline |
| ChatExport.FileName | src/components/chat/ChatExport.tsx:19 | the name is 'chat-export-', then the date part of the ISO time (before the first 'T'), then the extension |
| ChatExport.ExportAsText | src/components/chat/ChatExport.tsx:10-43 | there is no text download for an empty log; otherwise a text/plain file named chat-export-DATE.txt whose content reads back line by line as the log when texts have no newline and formatted times contain neither a newline nor ']' |
| ChatExport.ExportAsJson | src/components/chat/ChatExport.tsx:27-43 | there is no JSON download for an empty log; otherwise an application/json file named chat-export-DATE.json holding the serialised log |
| ChatExport.JsonReadsBack | src/components/chat/ChatExport.tsx:27-28 | with a serialiser that its parser undoes, the JSON download's content parses back to exactly the exported log |
| ChatExport.MultilineCollides | src/components/chat/ChatExport.tsx:11-13 | as written, a message whose text is "a\n[t] You: b" exports to the same text as the two messages "a" and "b", so a transcript with multi-line messages cannot be read back |

## Left out

- Rendering, styling, routing, textarea auto-resize and focus calls are left out. `navigate('/chat')` is a `navigated` flag.
- `Math.random()` and `new Date()` are parameters. The model does not claim message ids are unique, because ids drawn with `Math.random().toString(36).substr(2, 9)` can collide.
- Reply and login timers are not timed. A reply is a `Deliver` step the caller may take for any pending prompt, in any order.
- Login and register are one step at the moment their timer fires. The intermediate `isLoading = true` state is not modelled. Nor is the submit button being disabled while loading.
- AuthContext.Restore: a `JSON.parse` that succeeds without giving a user (for example the text `null`) is not told apart from a failed parse. The model treats both as `None`, which removes the keys, but `AuthProvider` would set a null user and keep them.
- Strings.ToLower: maps only the ASCII letters; the full Unicode case mapping of `toLowerCase` is not modelled.
- RegisterForm.Validate: the password length counts Unicode code points; JavaScript's `length` counts UTF-16 code units. The two differ only for characters outside the Basic Multilingual Plane.
- The textarea's `disabled` attribute also stops keystrokes from reaching `handleKeyDown` in the browser. The model keeps only the checks written in the handlers. The page invariant does not need the browser's blocking.
- `setIsTyping` is exposed by the session but called by nothing outside it, so it is not an operation of the model. The optional `isTyping` field of a message is never set and is left out.
- The form inputs carry `required` and, for the email, `type="email"`. `ui/Input` is not part of this model. If it passes these attributes on, the browser blocks an empty or malformed submit before `handleSubmit` runs. The model keeps only the handlers' own checks, which also cover the empty case.
- The header's `window.confirm` before clearing is the boolean `confirmed` of `ChatPage.ClearChat`.
- The Blob/URL/anchor download mechanics, `toLocaleString`, `toISOString` and `JSON.stringify` of the log are parameters or left out.
- The theme store and the prompt-template list are plain data or toggles with no logic to verify, and are not part of this model.

=== FILE: auth_context.dfy ===
/**
 The session store (`src/contexts/AuthContext.tsx`): the current user, the
 loading flag, and `localStorage` modelled as a string-to-string map.

 `JSON.stringify`/`JSON.parse` of a user are the parameters `encode` and
 `decode` (a failed parse is `None`); the random id and token suffixes are
 parameters too. Login and register are modelled at the moment their one-second
 timer fires.
 */
module AuthContext {
  import opened Wrappers
  import opened Strings

  datatype User = User(id: string, email: string, name: string)

  type Storage = map<string, string>

  datatype AuthState = AuthState(user: Option<User>, isLoading: bool, storage: Storage)

  /** The boolean a login or register call resolves to, with the store afterwards. */
  datatype AuthResult = AuthResult(state: AuthState, ok: bool)

  /** What a form submit leaves behind: the error shown, the store, and whether it navigated to the chat. */
  datatype Submitted = Submitted(error: string, auth: AuthState, navigated: bool)

  const TokenKey := "auth_token"
  const UserKey := "user_data"
  const TokenPrefix := "mock_jwt_token_"

  /** `localStorage.getItem(key)` is truthy: present and not the empty string. */
  predicate Truthy(storage: Storage, key: string)
  {
    key in storage && storage[key] != ""
  }

  /** The two session keys are stored together or not at all. */
  predicate Paired(storage: Storage)
  {
    TokenKey in storage <==> UserKey in storage
  }

  /** A user in memory is always backed by both stored keys. */
  predicate Consistent(s: AuthState)
  {
    Paired(s.storage) && (s.user.Some? ==> TokenKey in s.storage && UserKey in s.storage)
  }

  /** The serialiser never yields the empty string and the parser reads back what it wrote. */
  ghost predicate RoundTrips(encode: User -> string, decode: string -> Option<User>)
  {
    forall u: User :: encode(u) != "" && decode(encode(u)) == Some(u)
  }

  /** Only the two session keys differ between the stores. */
  ghost predicate OthersUnchanged(before: Storage, after: Storage)
  {
    forall k :: k != TokenKey && k != UserKey ==>
      (k in before <==> k in after) && (k in before ==> before[k] == after[k])
  }

  /** `email.split('@')[0]`: the display name login derives. */
  function NameFromEmail(email: string): (name: string)
    ensures name <= email && '@' !in name
    ensures |name| < |email| ==> email[|name|] == '@'
    ensures '@' !in email ==> name == email
  {
    BeforeFirst(email, '@')
  }

  /**
   The mount-time effect: with both keys truthy, a user that parses is
   restored and one that does not has both keys removed; loading always ends.
   */
  function Restore(storage: Storage, decode: string -> Option<User>): (r: AuthState)
    ensures !r.isLoading
    ensures Truthy(storage, TokenKey) && Truthy(storage, UserKey) && decode(storage[UserKey]).Some? ==>
      r.user == decode(storage[UserKey]) && r.storage == storage
    ensures Truthy(storage, TokenKey) && Truthy(storage, UserKey) && decode(storage[UserKey]).None? ==>
      r.user == None && r.storage.Keys == storage.Keys - {TokenKey, UserKey} && OthersUnchanged(storage, r.storage)
    ensures !(Truthy(storage, TokenKey) && Truthy(storage, UserKey)) ==> r.user == None && r.storage == storage
  {
    if Truthy(storage, TokenKey) && Truthy(storage, UserKey) then
      match decode(storage[UserKey])
      case Some(u) => AuthState(Some(u), false, storage)
      case None => AuthState(None, false, storage - {TokenKey, UserKey})
    else AuthState(None, false, storage)
  }

  /** Writes the session for `u`: a prefixed random token and the serialised user. */
  function SignIn(s: AuthState, u: User, tokenSuffix: string, encode: User -> string): (r: AuthState)
    ensures r.user == Some(u) && !r.isLoading
    ensures TokenKey in r.storage && r.storage[TokenKey] == TokenPrefix + tokenSuffix
    ensures UserKey in r.storage && r.storage[UserKey] == encode(u)
    ensures OthersUnchanged(s.storage, r.storage)
  {
    AuthState(Some(u), false, s.storage[TokenKey := TokenPrefix + tokenSuffix][UserKey := encode(u)])
  }

  /** `login(email, password)`: succeeds exactly when both are non-empty. */
  function Login(s: AuthState, email: string, password: string, idSuffix: string, tokenSuffix: string,
                 encode: User -> string): (r: AuthResult)
    ensures r.ok <==> email != "" && password != ""
    ensures r.ok ==> r.state == SignIn(s, User(idSuffix, email, NameFromEmail(email)), tokenSuffix, encode)
    ensures !r.ok ==> r.state == s.(isLoading := false)
  {
    if email != "" && password != "" then
      AuthResult(SignIn(s, User(idSuffix, email, NameFromEmail(email)), tokenSuffix, encode), true)
    else AuthResult(s.(isLoading := false), false)
  }

  /** `register(name, email, password)`: succeeds exactly when all three are non-empty. */
  function Register(s: AuthState, name: string, email: string, password: string, idSuffix: string,
                    tokenSuffix: string, encode: User -> string): (r: AuthResult)
    ensures r.ok <==> name != "" && email != "" && password != ""
    ensures r.ok ==> r.state == SignIn(s, User(idSuffix, email, name), tokenSuffix, encode)
    ensures !r.ok ==> r.state == s.(isLoading := false)
  {
    if name != "" && email != "" && password != "" then
      AuthResult(SignIn(s, User(idSuffix, email, name), tokenSuffix, encode), true)
    else AuthResult(s.(isLoading := false), false)
  }

  /** `logout()`: forgets the user and removes exactly the two session keys. */
  function Logout(s: AuthState): (r: AuthState)
    ensures r.user == None && r.isLoading == s.isLoading
    ensures r.storage.Keys == s.storage.Keys - {TokenKey, UserKey}
    ensures OthersUnchanged(s.storage, r.storage)
  {
    AuthState(None, s.isLoading, s.storage - {TokenKey, UserKey})
  }

  /** A reload after a successful login restores a user with the same email and id. */
  lemma LoginThenRestore(s: AuthState, email: string, password: string, idSuffix: string, tokenSuffix: string,
                         encode: User -> string, decode: string -> Option<User>)
    requires RoundTrips(encode, decode)
    requires email != "" && password != ""
    ensures var after := Restore(Login(s, email, password, idSuffix, tokenSuffix, encode).state.storage, decode);
      after.user == Some(User(idSuffix, email, NameFromEmail(email)))
  {
  }

  /** The same holds for a reload after registering. */
  lemma RegisterThenRestore(s: AuthState, name: string, email: string, password: string, idSuffix: string,
                            tokenSuffix: string, encode: User -> string, decode: string -> Option<User>)
    requires RoundTrips(encode, decode)
    requires name != "" && email != "" && password != ""
    ensures var after := Restore(Register(s, name, email, password, idSuffix, tokenSuffix, encode).state.storage, decode);
      after.user == Some(User(idSuffix, email, name))
  {
  }

  /** A reload after logout finds nobody signed in. */
  lemma LogoutThenRestore(s: AuthState, decode: string -> Option<User>)
    ensures Restore(Logout(s).storage, decode).user == None
  {
  }

  /** The operations of the store. */
  datatype AuthEvent =
    | DoLogin(email: string, password: string, idSuffix: string, tokenSuffix: string)
    | DoRegister(name: string, email: string, password: string, idSuffix: string, tokenSuffix: string)
    | DoLogout

  function Apply(s: AuthState, ev: AuthEvent, encode: User -> string): AuthState
  {
    match ev
    case DoLogin(email, password, i, t) => Login(s, email, password, i, t, encode).state
    case DoRegister(name, email, password, i, t) => Register(s, name, email, password, i, t, encode).state
    case DoLogout => Logout(s)
  }

  function ApplyAll(s: AuthState, evs: seq<AuthEvent>, encode: User -> string): AuthState
    decreases |evs|
  {
    if evs == [] then s else ApplyAll(Apply(s, evs[0], encode), evs[1..], encode)
  }

  /** Restoring from paired storage yields a consistent store. */
  lemma RestoreConsistent(storage: Storage, decode: string -> Option<User>)
    requires Paired(storage)
    ensures Consistent(Restore(storage, decode))
  {
  }

  /** Token and user are set together and cleared together by every operation sequence. */
  lemma {:induction false} ApplyAllConsistent(s: AuthState, evs: seq<AuthEvent>, encode: User -> string)
    requires Consistent(s)
    ensures Consistent(ApplyAll(s, evs, encode))
    decreases |evs|
  {
    if evs != [] {
      var s' := Apply(s, evs[0], encode);
      assert Consistent(s');
      ApplyAllConsistent(s', evs[1..], encode);
    }
  }

  /** The display name for an email without '@' is the whole email; otherwise the part before it. */
  lemma NameExamples()
    ensures NameFromEmail("a@b.com") == "a"
    ensures NameFromEmail("alice") == "alice"
    ensures NameFromEmail("@host") == ""
  {
  }
}

=== FILE: auth_forms.dfy ===
/**
 The sign-in form (`src/components/auth/LoginForm.tsx`): `handleSubmit` clears
 the error, checks both fields are filled, calls `login`, and on failure shows
 a generic error; on success it navigates to the chat page.
 */
module LoginForm {
  import opened Wrappers
  import opened AuthContext

  const FillAllFields := "Please fill in all fields"
  const InvalidCredentials := "Invalid email or password"

  /** Where validation sends a submit: an error message, or a call to the store. */
  datatype Verdict = Reject(error: string) | CallLogin(email: string, password: string)

  /** The validation chain of `handleSubmit`. */
  function Validate(email: string, password: string): (v: Verdict)
    ensures v.Reject? <==> email == "" || password == ""
    ensures v.Reject? ==> v.error == FillAllFields
    ensures v.CallLogin? ==> v.email == email && v.password == password
  {
    if email == "" || password == "" then Reject(FillAllFields) else CallLogin(email, password)
  }

  /** The message shown for the boolean `login` resolved to. */
  function ResultError(success: bool): (error: string)
    ensures error == "" <==> success
    ensures !success ==> error == InvalidCredentials
  {
    if success then "" else InvalidCredentials
  }

  /**
   `handleSubmit` against the store. The previous error never survives: it is
   cleared before validation.
   */
  function Submit(previousError: string, email: string, password: string, auth: AuthState,
                  idSuffix: string, tokenSuffix: string, encode: User -> string): (r: Submitted)
    ensures r.error == "" || r.error == FillAllFields || r.error == InvalidCredentials
    ensures r.error == FillAllFields <==> email == "" || password == ""
    ensures r.error == FillAllFields ==> r.auth == auth && !r.navigated
    ensures r.navigated <==> r.error == ""
    ensures email != "" && password != "" ==>
      var res := Login(auth, email, password, idSuffix, tokenSuffix, encode);
      r.navigated == res.ok && r.auth == res.state && r.error == ResultError(res.ok)
  {
    match Validate(email, password)
    case Reject(error) => Submitted(error, auth, false)
    case CallLogin(e, p) =>
      var res := Login(auth, e, p, idSuffix, tokenSuffix, encode);
      Submitted(ResultError(res.ok), res.state, res.ok)
  }

  /**
   The form only calls `login` with both fields filled, which is all the store
   checks: a submit either asks to fill the fields or signs the user in.
   */
  lemma FormLoginSucceeds(previousError: string, email: string, password: string, auth: AuthState,
                          idSuffix: string, tokenSuffix: string, encode: User -> string)
    ensures var r := Submit(previousError, email, password, auth, idSuffix, tokenSuffix, encode);
      && r.error != InvalidCredentials
      && (r.error == "" ==> r.auth.user == Some(User(idSuffix, email, NameFromEmail(email))))
  {
  }
}

/**
 The sign-up form (`src/components/auth/RegisterForm.tsx`): `handleSubmit`
 clears the error, then checks in order that all four fields are filled, that
 the passwords match and that the password has at least six characters,
 before calling `register`.
 */
module RegisterForm {
  import opened Wrappers
  import opened AuthContext

  const FillAllFields := "Please fill in all fields"
  const PasswordsDiffer := "Passwords do not match"
  const PasswordTooShort := "Password must be at least 6 characters long"
  const RegistrationFailed := "Registration failed. Please try again."
  const MinPasswordLength := 6

  datatype Verdict = Reject(error: string) | CallRegister(name: string, email: string, password: string)

  /** The validation chain of `handleSubmit`, checked in `handleSubmit`'s order. */
  function Validate(name: string, email: string, password: string, confirmPassword: string): (v: Verdict)
    ensures v.CallRegister? <==>
      name != "" && email != "" && password != "" && confirmPassword != ""
      && password == confirmPassword && |password| >= MinPasswordLength
    ensures v.CallRegister? ==> v.name == name && v.email == email && v.password == password
    ensures v.Reject? && v.error == FillAllFields <==>
      name == "" || email == "" || password == "" || confirmPassword == ""
    ensures v.Reject? && v.error == PasswordsDiffer <==>
      name != "" && email != "" && password != "" && confirmPassword != "" && password != confirmPassword
    ensures v.Reject? && v.error == PasswordTooShort <==>
      name != "" && email != "" && password != "" && password == confirmPassword && |password| < MinPasswordLength
  {
    if name == "" || email == "" || password == "" || confirmPassword == "" then Reject(FillAllFields)
    else if password != confirmPassword then Reject(PasswordsDiffer)
    else if |password| < MinPasswordLength then Reject(PasswordTooShort)
    else CallRegister(name, email, password)
  }

  function ResultError(success: bool): (error: string)
    ensures error == "" <==> success
    ensures !success ==> error == RegistrationFailed
  {
    if success then "" else RegistrationFailed
  }

  /** `handleSubmit` against the store. */
  function Submit(previousError: string, name: string, email: string, password: string, confirmPassword: string,
                  auth: AuthState, idSuffix: string, tokenSuffix: string, encode: User -> string): (r: Submitted)
    ensures r.error in {"", FillAllFields, PasswordsDiffer, PasswordTooShort, RegistrationFailed}
    ensures r.navigated <==> r.error == ""
    ensures r.error == "" ==> Validate(name, email, password, confirmPassword).CallRegister?
    ensures !Validate(name, email, password, confirmPassword).CallRegister? ==> r.auth == auth
    ensures var v := Validate(name, email, password, confirmPassword);
      v.Reject? ==> r.error == v.error && !r.navigated
    ensures Validate(name, email, password, confirmPassword).CallRegister? ==>
      var res := Register(auth, name, email, password, idSuffix, tokenSuffix, encode);
      r.navigated == res.ok && r.auth == res.state && r.error == ResultError(res.ok)
  {
    match Validate(name, email, password, confirmPassword)
    case Reject(error) => Submitted(error, auth, false)
    case CallRegister(n, e, p) =>
      var res := Register(auth, n, e, p, idSuffix, tokenSuffix, encode);
      Submitted(ResultError(res.ok), res.state, res.ok)
  }

  /** A mismatch is reported before a short password. */
  lemma MismatchBeforeLength()
    ensures Validate("Ann", "ann@x.org", "abc", "abcd") == Reject(PasswordsDiffer)
  {
  }

  /**
   Everything the form lets through satisfies the store, so "Registration
   failed" is never shown and the user is stored with exactly the given name and email.
   */
  lemma FormRegisterSucceeds(previousError: string, name: string, email: string, password: string,
                             confirmPassword: string, auth: AuthState, idSuffix: string, tokenSuffix: string,
                             encode: User -> string)
    ensures var r := Submit(previousError, name, email, password, confirmPassword, auth, idSuffix, tokenSuffix, encode);
      && r.error != RegistrationFailed
      && (r.error == "" ==> r.auth.user == Some(User(idSuffix, email, name)))
  {
  }
}

=== FILE: chat_context.dfy ===
/**
 The chat session store (`src/contexts/ChatContext.tsx`): an append-only
 message log, the "bot is typing" flag, and the bot replies whose timers
 have been started but have not fired yet.

 `Math.random()` (message ids, the reply delay, the pool index) and
 `new Date()` become parameters. A `setTimeout` callback is modelled by
 the prompt it captured: `SendMessage` adds it to `pending`, and `Deliver`
 fires any one of the pending callbacks, in whatever order the caller picks.
 */
module ChatContext {
  import opened Strings

  /** One chat message; `timestamp` stands for the `Date` it was created at. */
  datatype Message = Message(id: string, text: string, isBot: bool, timestamp: int)

  /** The provider's state plus the multiset of prompts whose reply timers are still running. */
  datatype ChatState = ChatState(messages: seq<Message>, isTyping: bool, pending: multiset<string>)

  const WelcomeId := "1"
  const WelcomeText := "Hello! I'm your AI assistant. How can I help you today?"

  const GreetingReply := "Hello there! It's great to meet you. What would you like to chat about today?"
  const HelpReply := "I'm here to help! You can ask me questions, have a conversation, or try using voice input by clicking the microphone button. What do you need assistance with?"
  const WeatherReply := "I don't have access to real-time weather data, but I'd be happy to discuss weather patterns, climate, or help you find weather resources!"

  /** The generic acknowledgements one of which opens the echo reply. */
  const Pool: seq<string> := [
    "That's an interesting question! Let me think about that...",
    "I understand what you're asking. Here's what I think...",
    "Great point! From my perspective...",
    "I can help you with that. Here's my suggestion...",
    "That's a complex topic. Let me break it down for you...",
    "I see what you mean. Here's how I would approach that...",
    "Excellent question! Based on what I know...",
    "I appreciate you asking that. Here's my take..."
  ]

  const EchoOpen := " Your message was: '"
  const EchoClose := "'. How else can I assist you?"

  /** The state the provider mounts with, `now` being the mount time. */
  function Init(now: int): (s: ChatState)
    ensures |s.messages| == 1
    ensures s.messages[0].id == WelcomeId && s.messages[0].isBot && s.messages[0].text == WelcomeText
    ensures !s.isTyping && |s.pending| == 0
  {
    ChatState([Message(WelcomeId, WelcomeText, true, now)], false, multiset{})
  }

  /** `addMessage(text, isBot)`, with the random id and the creation time as parameters. */
  function AddMessage(s: ChatState, text: string, isBot: bool, id: string, now: int): (r: ChatState)
    ensures |r.messages| == |s.messages| + 1
    ensures r.messages[..|s.messages|] == s.messages
    ensures r.messages[|s.messages|].text == text && r.messages[|s.messages|].isBot == isBot
    ensures r.messages[|s.messages|].id == id && r.messages[|s.messages|].timestamp == now
    ensures r.isTyping == s.isTyping && r.pending == s.pending
  {
    s.(messages := s.messages + [Message(id, text, isBot, now)])
  }

  /** `clearMessages()`: empties the log; the typing flag and running timers are untouched. */
  function ClearMessages(s: ChatState): (r: ChatState)
    ensures r.messages == []
    ensures r.isTyping == s.isTyping && r.pending == s.pending
  {
    s.(messages := [])
  }

  /** The routing test: `userMessage.toLowerCase().includes(keyword)`. */
  predicate Mentions(userMessage: string, keyword: string)
  {
    Contains(ToLower(userMessage), keyword)
  }

  predicate IsGreeting(userMessage: string)
  {
    Mentions(userMessage, "hello") || Mentions(userMessage, "hi")
  }

  /** The fallback reply: a pool entry followed by an echo of the untouched input. */
  function EchoReply(userMessage: string, pick: nat): (reply: string)
    requires pick < |Pool|
    ensures Contains(reply, userMessage)
    ensures Pool[pick] <= reply
  {
    ContainsMiddle(Pool[pick] + EchoOpen, userMessage, EchoClose);
    Pool[pick] + EchoOpen + userMessage + EchoClose
  }

  /**
   `simulateBotResponse(userMessage)`: greeting first, then help, then
   weather, else an echo; `pick` is `Math.floor(Math.random() * 8)`.
   */
  function Respond(userMessage: string, pick: nat): (reply: string)
    requires pick < |Pool|
    ensures IsGreeting(userMessage) ==> reply == GreetingReply
    ensures !IsGreeting(userMessage) && Mentions(userMessage, "help") ==> reply == HelpReply
    ensures !IsGreeting(userMessage) && !Mentions(userMessage, "help") ==>
      (Mentions(userMessage, "weather") ==> reply == WeatherReply) &&
      (!Mentions(userMessage, "weather") ==> Contains(reply, userMessage) && Pool[pick] <= reply)
  {
    if IsGreeting(userMessage) then GreetingReply
    else if Mentions(userMessage, "help") then HelpReply
    else if Mentions(userMessage, "weather") then WeatherReply
    else EchoReply(userMessage, pick)
  }

  /**
   `sendMessage(text)` up to the point where it returns: the user message is
   appended (even an empty one), typing is switched on and a reply timer is started.
   */
  function SendMessage(s: ChatState, text: string, id: string, now: int): (r: ChatState)
    ensures r.messages == s.messages + [Message(id, text, false, now)]
    ensures r.isTyping
    ensures r.pending == s.pending + multiset{text}
  {
    AddMessage(s, text, false, id, now).(isTyping := true, pending := s.pending + multiset{text})
  }

  /**
   The reply timer for `prompt` fires: typing is switched off and the routed
   reply is appended as a bot message, whatever happened to the log meanwhile.
   */
  function Deliver(s: ChatState, prompt: string, pick: nat, id: string, now: int): (r: ChatState)
    requires prompt in s.pending
    requires pick < |Pool|
    ensures !r.isTyping
    ensures r.pending == s.pending - multiset{prompt}
    ensures |r.pending| + 1 == |s.pending|
    ensures r.messages == s.messages + [Message(id, Respond(prompt, pick), true, now)]
  {
    var r := AddMessage(s.(isTyping := false), Respond(prompt, pick), true, id, now);
    r.(pending := s.pending - multiset{prompt})
  }

  /** The keyword tests ignore case: lower-casing the input first changes nothing. */
  lemma MentionsIgnoresCase(userMessage: string, keyword: string)
    ensures Mentions(ToLower(userMessage), keyword) == Mentions(userMessage, keyword)
  {
    ToLowerIdempotent(userMessage);
  }

  /**
   Inputs that differ only in the case of their letters ("HeLLo" and "hello")
   are routed to the same canned reply, or both to the echo.
   */
  lemma RoutingIgnoresCase(u: string, v: string, pick: nat)
    requires SameIgnoringCase(u, v)
    requires pick < |Pool|
    ensures forall keyword :: Mentions(u, keyword) == Mentions(v, keyword)
    ensures IsGreeting(u) || Mentions(u, "help") || Mentions(u, "weather") ==> Respond(u, pick) == Respond(v, pick)
  {
    SameIgnoringCaseLowers(u, v);
  }

  /** A keyword is mentioned exactly when some window of the input spells it in either case. */
  lemma MentionsIff(userMessage: string, keyword: string)
    ensures Mentions(userMessage, keyword) <==> exists i: nat :: MatchesLoweredAt(userMessage, keyword, i)
  {
    ContainsLoweredIff(userMessage, keyword);
  }

  /** A greeting keyword wins over the others: "hi, weather?" is answered with the greeting. */
  lemma GreetingHasPriority()
    ensures Respond("hi, weather?", 0) == GreetingReply
    ensures Respond("HELLO, can you help?", 3) == GreetingReply
  {
    assert OccursAt(ToLower("hi, weather?"), "hi", 0);
    ContainsIff(ToLower("hi, weather?"), "hi");
    assert OccursAt(ToLower("HELLO, can you help?"), "hello", 0);
    ContainsIff(ToLower("HELLO, can you help?"), "hello");
  }

  /**
   "hi" is matched as a substring, so a weather question that merely contains a
   word such as "this" is routed to the greeting.
   */
  lemma SubstringGreeting()
    ensures Respond("Weather this week?", 0) == GreetingReply
  {
    assert OccursAt(ToLower("Weather this week?"), "hi", 9);
    ContainsIff(ToLower("Weather this week?"), "hi");
  }

  /**
   A complete send cycle on a session with no reply in flight grows the log by
   exactly two: the user's text, then the bot's reply to it; typing ends off.
   */
  lemma SendThenDeliver(s: ChatState, text: string, pick: nat, id1: string, t1: int, id2: string, t2: int)
    requires |s.pending| == 0
    requires pick < |Pool|
    ensures var r := Deliver(SendMessage(s, text, id1, t1), text, pick, id2, t2);
      && |r.messages| == |s.messages| + 2
      && r.messages[..|s.messages|] == s.messages
      && r.messages[|s.messages|] == Message(id1, text, false, t1)
      && r.messages[|s.messages| + 1].isBot
      && r.messages[|s.messages| + 1].text == Respond(text, pick)
      && !r.isTyping && |r.pending| == 0
  {
  }

  /** The scenario: mount, send "hi", let the reply arrive. */
  lemma HelloScenario(t0: int, t1: int, t2: int, id1: string, id2: string, pick: nat)
    requires pick < |Pool|
    ensures var r := Deliver(SendMessage(Init(t0), "hi", id1, t1), "hi", pick, id2, t2);
      && r.messages == [Message(WelcomeId, WelcomeText, true, t0), Message(id1, "hi", false, t1),
                        Message(id2, GreetingReply, true, t2)]
      && !r.isTyping
  {
  }

  /** Clearing does not cancel a running timer: its reply lands in the emptied log. */
  lemma ClearDoesNotCancel(s: ChatState, text: string, pick: nat, id1: string, t1: int, id2: string, t2: int)
    requires pick < |Pool|
    ensures var r := Deliver(ClearMessages(SendMessage(s, text, id1, t1)), text, pick, id2, t2);
      r.messages == [Message(id2, Respond(text, pick), true, t2)] && !r.isTyping
  {
  }

  /**
   The session itself does not refuse overlapping sends: after two sends and
   one reply, typing is off although a reply is still pending.
   */
  lemma OverlappingSends(s: ChatState, a: string, b: string, pick: nat, id1: string, id2: string, id3: string, t: int)
    requires pick < |Pool|
    ensures var r := Deliver(SendMessage(SendMessage(s, a, id1, t), b, id2, t), a, pick, id3, t);
      !r.isTyping && b in r.pending
  {
  }
}

=== FILE: chat_export.dfy ===
/**
 The transcript export (`src/components/chat/ChatExport.tsx`). The text export
 writes one `[time] Bot|You: text` line per message, joined by newlines; the
 JSON export hands the whole log to a serialiser. `toLocaleString` is the
 parameter `fmt`, `toISOString()` of the current time is `isoNow`, and
 `JSON.stringify` of the log is `encodeLog`.
 */
module ChatExport {
  import opened Wrappers
  import opened Strings
  import opened ChatContext

  /** A file offered for download. */
  datatype Download = Download(fileName: string, content: string, mimeType: string)

  /** What a text line reads back as: the formatted time, who spoke, and the text. */
  datatype Entry = Entry(time: string, isBot: bool, text: string)

  const FilePrefix := "chat-export-"

  function Label(isBot: bool): (speaker: string)
    ensures speaker == "Bot" <==> isBot
    ensures speaker == "You" <==> !isBot
  {
    if isBot then "Bot" else "You"
  }

  /** The text line for one message; the text is copied verbatim. */
  function Line(m: Message, fmt: int -> string): string
  {
    "[" + fmt(m.timestamp) + "] " + Label(m.isBot) + ": " + m.text
  }

  function Lines(log: seq<Message>, fmt: int -> string): (lines: seq<string>)
    ensures |lines| == |log|
    ensures forall i :: 0 <= i < |log| ==> lines[i] == Line(log[i], fmt)
  {
    seq(|log|, i requires 0 <= i < |log| => Line(log[i], fmt))
  }

  /** The content of the text export: the lines in log order, newline-separated, no trailing newline. */
  function TranscriptText(log: seq<Message>, fmt: int -> string): string
  {
    Join(Lines(log, fmt), "\n")
  }

  /** Reads one line back; `None` when it is not in the exported shape. */
  function ParseLine(line: string): Option<Entry>
  {
    if |line| == 0 || line[0] != '[' then None
    else
      var time := BeforeFirst(line[1..], ']');
      ParseAfterTime(time, line[1 + |time|..])
  }

  /** Reads `] Bot: text` or `] You: text`, the part of a line after the time. */
  function ParseAfterTime(time: string, rest: string): Option<Entry>
  {
    if |rest| < 7 || rest[..2] != "] " || rest[5..7] != ": " then None
    else if rest[2..5] == "Bot" then Some(Entry(time, true, rest[7..]))
    else if rest[2..5] == "You" then Some(Entry(time, false, rest[7..]))
    else None
  }

  /** Reads a whole transcript back, line by line. */
  function ParseTranscript(content: string): seq<Option<Entry>>
  {
    var lines := Split(content, '\n');
    seq(|lines|, i requires 0 <= i < |lines| => ParseLine(lines[i]))
  }

  /** A message whose formatted time cannot be confused with the line's delimiters. */
  predicate Unambiguous(m: Message, fmt: int -> string)
  {
    ']' !in fmt(m.timestamp) && '\n' !in fmt(m.timestamp) && '\n' !in m.text
  }

  /** The part after the time reads back as the speaker and the text. */
  lemma ParseAfterTimeShape(t: string, speaker: string, x: string)
    requires speaker == "Bot" || speaker == "You"
    ensures ParseAfterTime(t, "] " + speaker + ": " + x) == Some(Entry(t, speaker == "Bot", x))
  {
  }

  /** A line of the exported shape reads back as its time, speaker and text. */
  lemma ParseShape(t: string, speaker: string, x: string)
    requires ']' !in t
    requires speaker == "Bot" || speaker == "You"
    ensures ParseLine("[" + t + "] " + speaker + ": " + x) == Some(Entry(t, speaker == "Bot", x))
  {
    var line := "[" + t + "] " + speaker + ": " + x;
    var tail := " " + speaker + ": " + x;
    assert line[1..] == t + "]" + tail by {
      assert line == "[" + (t + "]" + tail);
    }
    assert BeforeFirst(line[1..], ']') == t by {
      BeforeFirstOf(t, ']', tail);
    }
    assert line[1 + |t|..] == "] " + speaker + ": " + x by {
      assert line == "[" + t + ("] " + speaker + ": " + x);
    }
    ParseAfterTimeShape(t, speaker, x);
  }

  /** Each line reads back as the message's time, speaker and text. */
  lemma ParseLineOfLine(m: Message, fmt: int -> string)
    requires ']' !in fmt(m.timestamp)
    ensures ParseLine(Line(m, fmt)) == Some(Entry(fmt(m.timestamp), m.isBot, m.text))
  {
    ParseShape(fmt(m.timestamp), Label(m.isBot), m.text);
  }

  lemma NoNewlineInLine(m: Message, fmt: int -> string)
    requires Unambiguous(m, fmt)
    ensures '\n' !in Line(m, fmt)
  {
  }

  /**
   The text export is lossless for messages whose text has no newline and
   whose time has no ']' or newline: it reads back as the log, in order.
   */
  lemma TranscriptRoundTrip(log: seq<Message>, fmt: int -> string)
    requires 0 < |log|
    requires forall i :: 0 <= i < |log| ==> Unambiguous(log[i], fmt)
    ensures ParseTranscript(TranscriptText(log, fmt)) == Entries(log, fmt)
  {
    var lines := Lines(log, fmt);
    forall i | 0 <= i < |lines| ensures '\n' !in lines[i] {
      NoNewlineInLine(log[i], fmt);
    }
    SplitJoin(lines, '\n');
    forall i | 0 <= i < |log| ensures ParseLine(lines[i]) == Some(Entry(fmt(log[i].timestamp), log[i].isBot, log[i].text)) {
      ParseLineOfLine(log[i], fmt);
    }
  }

  /** `chat-export-` followed by the date part of the ISO timestamp and the extension. */
  function FileName(isoNow: string, extension: string): (name: string)
    ensures |FilePrefix| + |extension| <= |name|
    ensures name[..|FilePrefix|] == FilePrefix && name[|name| - |extension|..] == extension
    ensures var date := name[|FilePrefix|..|name| - |extension|];
      date <= isoNow && 'T' !in date && (|date| < |isoNow| ==> isoNow[|date|] == 'T')
  {
    FilePrefix + BeforeFirst(isoNow, 'T') + extension
  }

  /** What a transcript of `log` should read back as. */
  function Entries(log: seq<Message>, fmt: int -> string): (es: seq<Option<Entry>>)
    ensures |es| == |log|
  {
    seq(|log|, i requires 0 <= i < |log| => Some(Entry(fmt(log[i].timestamp), log[i].isBot, log[i].text)))
  }

  /**
   `exportAsText`; unreachable (`None`) for an empty log, since the menu is not
   rendered then. The file reads back as the log whenever its texts and times
   cannot be confused with the line delimiters.
   */
  function ExportAsText(log: seq<Message>, fmt: int -> string, isoNow: string): (r: Option<Download>)
    ensures r.None? <==> |log| == 0
    ensures r.Some? ==> r.value.fileName == FileName(isoNow, ".txt") && r.value.mimeType == "text/plain"
    ensures r.Some? ==> r.value.content == TranscriptText(log, fmt)
    ensures r.Some? && (forall i :: 0 <= i < |log| ==> Unambiguous(log[i], fmt)) ==>
      ParseTranscript(r.value.content) == Entries(log, fmt)
  {
    if |log| == 0 then None
    else
      TranscriptReadsBack(log, fmt);
      Some(Download(FileName(isoNow, ".txt"), TranscriptText(log, fmt), "text/plain"))
  }

  /** The round trip, for logs that may contain ambiguous messages. */
  lemma TranscriptReadsBack(log: seq<Message>, fmt: int -> string)
    requires 0 < |log|
    ensures (forall i :: 0 <= i < |log| ==> Unambiguous(log[i], fmt)) ==>
      ParseTranscript(TranscriptText(log, fmt)) == Entries(log, fmt)
  {
    if forall i :: 0 <= i < |log| ==> Unambiguous(log[i], fmt) {
      TranscriptRoundTrip(log, fmt);
    }
  }

  /** `exportAsJSON`; likewise only for a non-empty log. */
  function ExportAsJson(log: seq<Message>, encodeLog: seq<Message> -> string, isoNow: string): (r: Option<Download>)
    ensures r.None? <==> |log| == 0
    ensures r.Some? ==> r.value == Download(FileName(isoNow, ".json"), encodeLog(log), "application/json")
  {
    if |log| == 0 then None else Some(Download(FileName(isoNow, ".json"), encodeLog(log), "application/json"))
  }

  /**
   With a serialiser the matching parser undoes, the JSON download holds exactly
   the log: reading its content back gives every message, in order.
   */
  lemma JsonReadsBack(log: seq<Message>, encodeLog: seq<Message> -> string,
                      decodeLog: string -> Option<seq<Message>>, isoNow: string)
    requires decodeLog(encodeLog(log)) == Some(log)
    ensures var r := ExportAsJson(log, encodeLog, isoNow);
      r.Some? ==> decodeLog(r.value.content) == Some(log)
  {
  }

  /**
   A multi-line message is not read back: the text export of one message whose
   text holds a newline and a second line in the export's shape is the same as
   that of a two-message log.
   */
  lemma MultilineCollides()
    ensures var fmt := (t: int) => "t";
      TranscriptText([Message("1", "a\n[t] You: b", false, 0)], fmt)
      == TranscriptText([Message("1", "a", false, 0), Message("2", "b", false, 1)], fmt)
  {
    var fmt := (t: int) => "t";
    ShortTranscripts(Message("1", "a\n[t] You: b", false, 0), Message("1", "a", false, 0), fmt);
    ShortTranscripts(Message("1", "a", false, 0), Message("2", "b", false, 1), fmt);
  }

  /** A one-message log exports as exactly its line, a two-message log as two lines and one newline. */
  lemma ShortTranscripts(a: Message, b: Message, fmt: int -> string)
    ensures TranscriptText([a], fmt) == Line(a, fmt)
    ensures TranscriptText([a, b], fmt) == Line(a, fmt) + "\n" + Line(b, fmt)
  {
    assert Lines([a], fmt) == [Line(a, fmt)];
    assert Lines([a, b], fmt) == [Line(a, fmt), Line(b, fmt)];
    var parts := Lines([a, b], fmt);
    assert parts[1..] == [Line(b, fmt)];
    assert Join(parts[1..], "\n") == Line(b, fmt);
  }
}

=== FILE: chat_input.dfy ===
/**
 The message composer (`src/components/chat/ChatInput.tsx`): the draft being
 typed, the newest-first history of sent drafts (at most 50), and the
 position reached while browsing that history (-1 when not browsing).
 */
module ChatInput {
  import opened Wrappers
  import opened Strings

  const MaxHistory := 50

  datatype Composer = Composer(draft: string, history: seq<string>, index: int)

  /** The keys `handleKeyDown` distinguishes. */
  datatype Key = Enter(shift: bool) | ArrowUp | ArrowDown | OtherKey

  /** Everything the user can do to the composer. */
  datatype InputEvent =
    | Edit(text: string)          // the textarea's onChange
    | Voice(transcript: string)   // handleVoiceTranscript
    | Template(template: string)  // handleTemplateSelect
    | KeyDown(key: Key)           // handleKeyDown
    | ClickOlder                  // the on-screen up button
    | ClickNewer                  // the on-screen down button
    | ClickSend                   // the send button

  /** The composer's new state and the text handed to `onSendMessage`, if any. */
  datatype Outcome = Outcome(next: Composer, sent: Option<string>)

  const Initial := Composer("", [], -1)

  /** Bounded history, and the browsing position is -1 or a valid history index. */
  predicate Valid(c: Composer)
  {
    |c.history| <= MaxHistory && -1 <= c.index < |c.history|
  }

  function Min(a: int, b: int): int { if a <= b then a else b }

  function Max(a: int, b: int): int { if a <= b then b else a }

  /**
   `handleSend`: ignored for a blank draft or a disabled composer; otherwise the
   untrimmed draft is sent, pushed onto the front of the history (keeping 50),
   and the draft and browsing position are reset.
   */
  function Send(c: Composer, disabled: bool): (r: Outcome)
    ensures IsBlank(c.draft) || disabled ==> r.next == c && r.sent == None
    ensures !IsBlank(c.draft) && !disabled ==>
      && r.sent == Some(c.draft)
      && r.next.draft == "" && r.next.index == -1
      && |r.next.history| == Min(|c.history| + 1, MaxHistory)
      && r.next.history[0] == c.draft
      && forall i :: 1 <= i < |r.next.history| ==> r.next.history[i] == c.history[i - 1]
  {
    if IsBlank(c.draft) || disabled then Outcome(c, None)
    else Outcome(Composer("", Push(c.history, c.draft), -1), Some(c.draft))
  }

  /** `[sent, ...prev].slice(0, 50)`: the newest entry first, the oldest beyond 50 dropped. */
  function Push(history: seq<string>, sent: string): (r: seq<string>)
    ensures |r| == Min(|history| + 1, MaxHistory)
    ensures r[0] == sent
    ensures forall i :: 1 <= i < |r| ==> r[i] == history[i - 1]
  {
    var h := [sent] + history;
    h[..Min(|h|, MaxHistory)]
  }

  /** One step back in time: ArrowUp and the up button. */
  function Older(c: Composer): (r: Composer)
    requires Valid(c) && 0 < |c.history|
    ensures Valid(r) && r.history == c.history
    ensures r.index == Min(c.index + 1, |c.history| - 1) && r.draft == c.history[r.index]
  {
    var i := Min(c.index + 1, |c.history| - 1);
    Composer(c.history[i], c.history, i)
  }

  /** One step forward in time: ArrowDown and the down button; stepping past the newest clears the draft. */
  function Newer(c: Composer): (r: Composer)
    requires Valid(c)
    ensures Valid(r) && r.history == c.history
    ensures r.index == Max(c.index - 1, -1)
    ensures r.draft == if r.index == -1 then "" else c.history[r.index]
  {
    var i := Max(c.index - 1, -1);
    Composer(if i == -1 then "" else c.history[i], c.history, i)
  }

  /** Replacing the draft (typing, a voice transcript, a template) touches nothing else. */
  function Replace(c: Composer, text: string): (r: Composer)
    ensures r.draft == text && r.history == c.history && r.index == c.index
  {
    c.(draft := text)
  }

  /** `handleKeyDown`; a shifted Enter does nothing here (the newline arrives as an edit). */
  function OnKey(c: Composer, key: Key, disabled: bool): (r: Outcome)
    requires Valid(c)
    ensures Valid(r.next)
    ensures r.sent.Some? ==> key == Enter(false)
    ensures key == Enter(false) ==> r == Send(c, disabled)
    ensures key == ArrowUp && 0 < |c.history| ==> r == Outcome(Older(c), None)
    ensures key == ArrowUp && |c.history| == 0 ==> r == Outcome(c, None)
    ensures key == ArrowDown ==> r == Outcome(Newer(c), None)
    ensures key == Enter(true) || key == OtherKey ==> r == Outcome(c, None)
  {
    match key
    case Enter(shift) =>
      if shift then Outcome(c, None) else SendPreservesValid(c, disabled); Send(c, disabled)
    case ArrowUp => if 0 < |c.history| then Outcome(Older(c), None) else Outcome(c, None)
    case ArrowDown => Outcome(Newer(c), None)
    case OtherKey => Outcome(c, None)
  }

  /** The history buttons are shown only while browsing a non-empty history. */
  predicate ButtonsShown(c: Composer)
  {
    0 < |c.history| && 0 <= c.index
  }

  /** The up button: shown and enabled only below the oldest entry. */
  function ClickUp(c: Composer): (r: Composer)
    requires Valid(c)
    ensures Valid(r)
    ensures ButtonsShown(c) && c.index < |c.history| - 1 ==> r == Older(c)
    ensures !(ButtonsShown(c) && c.index < |c.history| - 1) ==> r == c
  {
    if ButtonsShown(c) && !(c.index >= |c.history| - 1) then Older(c) else c
  }

  /** The down button: shown and enabled only above the newest entry. */
  function ClickDown(c: Composer): (r: Composer)
    requires Valid(c)
    ensures Valid(r)
    ensures ButtonsShown(c) && 0 < c.index ==> r == Newer(c)
    ensures !(ButtonsShown(c) && 0 < c.index) ==> r == c
  {
    if ButtonsShown(c) && !(c.index <= 0) then Newer(c) else c
  }

  /** Dispatch one user action; `disabled` is the component's prop. */
  function Handle(c: Composer, e: InputEvent, disabled: bool): (r: Outcome)
    requires Valid(c)
    ensures Valid(r.next)
    ensures r.sent.Some? ==> !disabled && !IsBlank(c.draft) && r.sent == Some(c.draft)
    ensures e == ClickSend ==> r == Send(c, disabled)
    ensures e.KeyDown? ==> r == OnKey(c, e.key, disabled)
    ensures e == ClickOlder ==> r == Outcome(ClickUp(c), None)
    ensures e == ClickNewer ==> r == Outcome(ClickDown(c), None)
    ensures e.Edit? ==> r == Outcome(Replace(c, e.text), None)
    ensures e.Voice? ==> r == Outcome(Replace(c, e.transcript), None)
    ensures e.Template? ==> r == Outcome(Replace(c, e.template), None)
  {
    match e
    case Edit(text) => Outcome(Replace(c, text), None)
    case Voice(transcript) => Outcome(Replace(c, transcript), None)
    case Template(template) => Outcome(Replace(c, template), None)
    case KeyDown(key) => OnKey(c, key, disabled)
    case ClickOlder => Outcome(ClickUp(c), None)
    case ClickNewer => Outcome(ClickDown(c), None)
    case ClickSend => SendPreservesValid(c, disabled); Send(c, disabled)
  }

  /** The composer mounts in a valid state. */
  lemma InitialValid()
    ensures Valid(Initial) && Initial.draft == "" && Initial.history == []
  {
  }

  /** Sending keeps the history bounded and the position in range. */
  lemma SendPreservesValid(c: Composer, disabled: bool)
    requires Valid(c)
    ensures Valid(Send(c, disabled).next)
  {
  }

  /** Runs a sequence of user actions, collecting what was sent, oldest first. */
  function Run(c: Composer, es: seq<InputEvent>, disabled: bool): (r: (Composer, seq<string>))
    requires Valid(c)
    ensures Valid(r.0)
    decreases |es|
  {
    if es == [] then (c, [])
    else
      var o := Handle(c, es[0], disabled);
      var rest := Run(o.next, es[1..], disabled);
      (rest.0, (if o.sent.Some? then [o.sent.value] else []) + rest.1)
  }

  /** A disabled composer never sends, whatever the user does. */
  lemma {:induction false} DisabledNeverSends(c: Composer, es: seq<InputEvent>)
    requires Valid(c)
    ensures Run(c, es, true).1 == []
    decreases |es|
  {
    if es != [] {
      DisabledNeverSends(Handle(c, es[0], true).next, es[1..]);
    }
  }

  /** `n` presses of ArrowUp climb `n` entries, stopping at the oldest. */
  function PressUp(c: Composer, n: nat): (r: Composer)
    requires Valid(c) && 0 < |c.history|
    ensures Valid(r) && r.history == c.history
    decreases n
  {
    if n == 0 then c else PressUp(Older(c), n - 1)
  }

  lemma {:induction false} PressUpReaches(c: Composer, n: nat)
    requires Valid(c) && 0 < |c.history| && 0 < n
    ensures PressUp(c, n).index == Min(c.index + n, |c.history| - 1)
    ensures PressUp(c, n).draft == c.history[Min(c.index + n, |c.history| - 1)]
    decreases n
  {
    if n > 1 {
      PressUpReaches(Older(c), n - 1);
    }
  }

  /** Right after a send, ArrowUp recalls exactly the text that was sent. */
  lemma UpRecallsLastSent(c: Composer, disabled: bool)
    requires Valid(c)
    requires !IsBlank(c.draft) && !disabled
    ensures var s := Send(c, disabled).next;
      0 < |s.history| && Older(s).draft == c.draft && Older(s).index == 0
  {
  }

  /**
   ArrowUp then ArrowDown returns to the same position, but from the newest
   position (-1) it leaves an empty draft: an unsent draft is discarded.
   */
  lemma UpThenDown(c: Composer)
    requires Valid(c) && 0 < |c.history| && c.index < |c.history| - 1
    ensures Newer(Older(c)).index == c.index
    ensures Newer(Older(c)).draft == if c.index == -1 then "" else c.history[c.index]
  {
  }

  /** Pressing ArrowDown while not browsing throws the current draft away. */
  lemma DownDiscardsDraft(c: Composer)
    requires Valid(c) && c.index == -1
    ensures OnKey(c, ArrowDown, false).next == c.(draft := "")
  {
  }

  /** The buttons do what the arrow keys do whenever they can be clicked. */
  lemma ButtonsMatchKeys(c: Composer, disabled: bool)
    requires Valid(c) && ButtonsShown(c)
    ensures c.index < |c.history| - 1 ==> ClickUp(c) == OnKey(c, ArrowUp, disabled).next
    ensures 0 < c.index ==> ClickDown(c) == OnKey(c, ArrowDown, disabled).next
  {
  }

  /** Unlike ArrowDown, the down button never leaves history browsing. */
  lemma DownButtonKeepsBrowsing(c: Composer)
    requires Valid(c) && ButtonsShown(c)
    ensures 0 <= ClickDown(c).index
  {
  }
}

=== FILE: chat_page.dfy ===
/**
 The chat page (`src/pages/ChatPage.tsx`) wires the composer to the session:
 `onSendMessage` is `sendMessage` and `disabled` is `isTyping`. The header's
 "clear chat" button calls `clearMessages` after a confirmation dialog.

 This module shows that with that wiring at most one reply is ever in flight,
 and that the typing flag is on exactly while it is.
 */
module ChatPage {
  import opened ChatContext
  import opened ChatInput
  import opened Strings

  datatype Page = Page(chat: ChatState, input: Composer)

  /** What can happen on the page; ids, times and pool picks are the random choices. */
  datatype PageEvent =
    | UserAction(e: InputEvent, id: string, now: int)
    | ReplyDue(prompt: string, pick: nat, id: string, now: int)
    | ClearChat(confirmed: bool)

  function Start(now: int): Page
  {
    Page(Init(now), Initial)
  }

  /** The page invariant: a valid composer, and typing exactly while the one possible reply is pending. */
  predicate Inv(p: Page)
  {
    && Valid(p.input)
    && |p.chat.pending| <= 1
    && (p.chat.isTyping <==> |p.chat.pending| == 1)
  }

  /**
   One event. A reply for a prompt without a running timer does not happen, and
   a clear the user did not confirm leaves everything as it was.
   */
  function Step(p: Page, ev: PageEvent): (r: Page)
    requires Valid(p.input)
    ensures Valid(r.input)
    ensures ev.UserAction? ==> r.input == Handle(p.input, ev.e, p.chat.isTyping).next
    ensures ev.UserAction? && p.chat.isTyping ==> r.chat == p.chat
    ensures ev.UserAction? && Handle(p.input, ev.e, p.chat.isTyping).sent.None? ==> r.chat == p.chat
    ensures ev.UserAction? && Handle(p.input, ev.e, p.chat.isTyping).sent.Some? ==>
      r.chat == SendMessage(p.chat, p.input.draft, ev.id, ev.now)
    ensures ev.ReplyDue? && ev.prompt in p.chat.pending && ev.pick < |Pool| ==>
      r == p.(chat := Deliver(p.chat, ev.prompt, ev.pick, ev.id, ev.now))
    ensures ev.ReplyDue? && !(ev.prompt in p.chat.pending && ev.pick < |Pool|) ==> r == p
    ensures ev.ClearChat? && ev.confirmed ==>
      r.chat.messages == [] && r.chat.isTyping == p.chat.isTyping && r.chat.pending == p.chat.pending && r.input == p.input
    ensures ev.ClearChat? && !ev.confirmed ==> r == p
  {
    match ev
    case UserAction(e, id, now) =>
      var o := Handle(p.input, e, p.chat.isTyping);
      var chat := if o.sent.Some? then SendMessage(p.chat, o.sent.value, id, now) else p.chat;
      Page(chat, o.next)
    case ReplyDue(prompt, pick, id, now) =>
      if prompt in p.chat.pending && pick < |Pool| then p.(chat := Deliver(p.chat, prompt, pick, id, now)) else p
    case ClearChat(confirmed) =>
      if confirmed then p.(chat := ClearMessages(p.chat)) else p
  }

  /** Every event keeps the invariant. */
  lemma StepPreservesInv(p: Page, ev: PageEvent)
    requires Inv(p)
    ensures Inv(Step(p, ev))
  {
  }

  function Run(p: Page, evs: seq<PageEvent>): (r: Page)
    requires Valid(p.input)
    ensures Valid(r.input)
    decreases |evs|
  {
    if evs == [] then p else Run(Step(p, evs[0]), evs[1..])
  }

  /** From the mounted page, every sequence of events keeps the invariant. */
  lemma {:induction false} RunPreservesInv(p: Page, evs: seq<PageEvent>)
    requires Inv(p)
    ensures Inv(Run(p, evs))
    decreases |evs|
  {
    if evs != [] {
      StepPreservesInv(p, evs[0]);
      RunPreservesInv(Step(p, evs[0]), evs[1..]);
    }
  }

  lemma StartInv(now: int)
    ensures Inv(Start(now))
  {
  }

  /**
   On the page, a reply is always for the one prompt in flight: when it arrives
   nothing is left pending and the composer can send again.
   */
  lemma ReplyEndsCycle(p: Page, prompt: string, pick: nat, id: string, now: int)
    requires Inv(p) && prompt in p.chat.pending && pick < |Pool|
    ensures var r := Step(p, ReplyDue(prompt, pick, id, now));
      |r.chat.pending| == 0 && !r.chat.isTyping
  {
  }

  /**
   With no reply in flight, the Send button and an unshifted Enter both hand a
   non-blank draft to `sendMessage`, and the composer empties; a blank draft
   changes nothing.
   */
  lemma SendReachesSession(p: Page, e: InputEvent, id: string, now: int)
    requires Inv(p) && !p.chat.isTyping
    requires e == ClickSend || e == KeyDown(Enter(false))
    ensures var r := Step(p, UserAction(e, id, now));
      !IsBlank(p.input.draft) ==>
        r.chat == SendMessage(p.chat, p.input.draft, id, now) && r.input.draft == ""
        && |r.chat.pending| == 1 && r.chat.isTyping
    ensures IsBlank(p.input.draft) ==> Step(p, UserAction(e, id, now)) == p
  {
  }
}

=== FILE: strings.dfy ===
/**
 This module models the few JavaScript string operations the chat client relies on:
 `includes`, `toLowerCase`, `trim`, `split(c)[0]`, `split(c)` and `join`.
 */
module Strings {

  /** True iff `sub` occurs in `s` starting at index `i`. */
  predicate OccursAt(s: string, sub: string, i: nat)
  {
    i + |sub| <= |s| && s[i..i + |sub|] == sub
  }

  /** `s.includes(sub)`: try every start position from the left. */
  predicate Contains(s: string, sub: string)
    decreases |s|
  {
    |sub| <= |s| && (s[..|sub|] == sub || (0 < |s| && Contains(s[1..], sub)))
  }

  /** The left-to-right scan finds `sub` exactly when some occurrence exists. */
  lemma {:induction false} ContainsIff(s: string, sub: string)
    ensures Contains(s, sub) <==> exists i: nat :: OccursAt(s, sub, i)
    decreases |s|
  {
    if |sub| > |s| {
      forall i: nat ensures !OccursAt(s, sub, i) {}
    } else if s[..|sub|] == sub {
      assert OccursAt(s, sub, 0);
    } else {
      ContainsIff(s[1..], sub);
      if Contains(s[1..], sub) {
        var j: nat :| OccursAt(s[1..], sub, j);
        assert s[1..][j..j + |sub|] == s[j + 1..j + 1 + |sub|];
        assert OccursAt(s, sub, j + 1);
      } else {
        forall i: nat | OccursAt(s, sub, i) ensures false {
          assert i != 0;
          assert s[1..][i - 1..i - 1 + |sub|] == s[i..i + |sub|];
          assert OccursAt(s[1..], sub, i - 1);
        }
      }
    }
  }

  /** A string contains every piece it is glued together from. */
  lemma ContainsMiddle(a: string, sub: string, b: string)
    ensures Contains(a + sub + b, sub)
  {
    var s := a + sub + b;
    assert s[|a|..|a| + |sub|] == sub;
    assert OccursAt(s, sub, |a|);
    ContainsIff(s, sub);
  }

  /** `toLowerCase` on one character; only the ASCII letters A-Z are mapped. */
  function LowerChar(c: char): (d: char)
    ensures 'A' <= c <= 'Z' ==> d as int == c as int + 32
    ensures !('A' <= c <= 'Z') ==> d == c
    ensures !('A' <= d <= 'Z')
  {
    if 'A' <= c <= 'Z' then (c as int + 32) as char else c
  }

  /** `s.toLowerCase()`, character by character. */
  function ToLower(s: string): (r: string)
    ensures |r| == |s|
    ensures forall i :: 0 <= i < |s| ==> r[i] == LowerChar(s[i])
  {
    seq(|s|, i requires 0 <= i < |s| => LowerChar(s[i]))
  }

  /** `sub` matches the window of `s` at `i` once `s` is lower-cased. */
  predicate MatchesLoweredAt(s: string, sub: string, i: nat)
  {
    i + |sub| <= |s| && forall j :: 0 <= j < |sub| ==> LowerChar(s[i + j]) == sub[j]
  }

  /** `s.toLowerCase().includes(sub)` holds exactly when some window of `s` matches `sub` after lower-casing. */
  lemma ContainsLoweredIff(s: string, sub: string)
    ensures Contains(ToLower(s), sub) <==> exists i: nat :: MatchesLoweredAt(s, sub, i)
  {
    var t := ToLower(s);
    ContainsIff(t, sub);
    forall i: nat ensures OccursAt(t, sub, i) <==> MatchesLoweredAt(s, sub, i) {
      if i + |sub| <= |s| {
        var w := t[i..i + |sub|];
        assert forall j :: 0 <= j < |sub| ==> w[j] == t[i + j];
      }
    }
  }

  /** Two strings that differ only in the case of ASCII letters. */
  predicate SameIgnoringCase(u: string, v: string)
  {
    |u| == |v| && forall i :: 0 <= i < |u| ==> LowerChar(u[i]) == LowerChar(v[i])
  }

  /** Strings that differ only in letter case lower-case to the same string. */
  lemma SameIgnoringCaseLowers(u: string, v: string)
    requires SameIgnoringCase(u, v)
    ensures ToLower(u) == ToLower(v)
  {
  }

  /** Lower-casing twice is lower-casing once. */
  lemma ToLowerIdempotent(s: string)
    ensures ToLower(ToLower(s)) == ToLower(s)
  {
  }

  /**
   The characters `String.prototype.trim` removes: the WhiteSpace and
   LineTerminator code points of sections 12.2 and 12.3 of ECMA-262.
   */
  predicate IsWhitespace(c: char)
  {
    var n := c as int;
    n == 0x09 || n == 0x0A || n == 0x0B || n == 0x0C || n == 0x0D || n == 0x20
    || n == 0xA0 || n == 0x1680 || (0x2000 <= n <= 0x200A) || n == 0x2028 || n == 0x2029
    || n == 0x202F || n == 0x205F || n == 0x3000 || n == 0xFEFF
  }

  predicate AllWhitespace(s: string)
  {
    forall i :: 0 <= i < |s| ==> IsWhitespace(s[i])
  }

  /** Drops leading whitespace: the result is the suffix after a whitespace-only prefix. */
  function TrimStart(s: string): (r: string)
    ensures |r| <= |s| && r == s[|s| - |r|..]
    ensures AllWhitespace(s[..|s| - |r|])
    ensures r == [] || !IsWhitespace(r[0])
    decreases |s|
  {
    if 0 < |s| && IsWhitespace(s[0]) then TrimStart(s[1..]) else s
  }

  /** Drops trailing whitespace: the result is the prefix before a whitespace-only suffix. */
  function TrimEnd(s: string): (r: string)
    ensures |r| <= |s| && r == s[..|r|]
    ensures AllWhitespace(s[|r|..])
    ensures r == [] || !IsWhitespace(r[|r| - 1])
    decreases |s|
  {
    if 0 < |s| && IsWhitespace(s[|s| - 1]) then TrimEnd(s[..|s| - 1]) else s
  }

  /** `s.trim()`: empty exactly when `s` consists of whitespace only. */
  function Trim(s: string): (r: string)
    ensures r == "" <==> AllWhitespace(s)
    ensures r != "" ==> !IsWhitespace(r[0]) && !IsWhitespace(r[|r| - 1])
  {
    TrimBlank(s);
    TrimEnd(TrimStart(s))
  }

  /** Both halves of `Trim` leave nothing exactly when everything was whitespace. */
  lemma TrimBlank(s: string)
    ensures TrimEnd(TrimStart(s)) == "" <==> AllWhitespace(s)
    ensures var r := TrimEnd(TrimStart(s)); r != "" ==> !IsWhitespace(r[0])
  {
    var t := TrimStart(s);
    var r := TrimEnd(t);
    var k := |s| - |t|;
    if r == "" {
      assert AllWhitespace(t) by { assert t[|r|..] == t; }
      assert t == [];
      assert s[..k] == s;
    } else {
      assert r[0] == t[0];
      assert !IsWhitespace(s[k]) by { assert s[k] == t[0]; }
    }
  }

  /** JavaScript's `!s.trim()`: the trimmed string is falsy. */
  predicate IsBlank(s: string)
  {
    Trim(s) == ""
  }

  /**
   `s.split(sep)[0]` for a one-character separator: everything before the
   first `sep`, or all of `s` when there is none.
   */
  function BeforeFirst(s: string, sep: char): (r: string)
    ensures r <= s
    ensures sep !in r
    ensures |r| < |s| ==> s[|r|] == sep
    ensures sep !in s ==> r == s
    decreases |s|
  {
    if s == [] || s[0] == sep then [] else [s[0]] + BeforeFirst(s[1..], sep)
  }

  /** The contract of `BeforeFirst` determines its result. */
  lemma BeforeFirstOf(a: string, sep: char, b: string)
    requires sep !in a
    ensures BeforeFirst(a + [sep] + b, sep) == a
    ensures BeforeFirst(a, sep) == a
  {
    var s := a + [sep] + b;
    assert s[|a|] == sep;
    assert forall i :: 0 <= i < |a| ==> s[i] == a[i] != sep;
    assert forall i :: 0 <= i < |a| ==> a[i] != sep;
  }

  /** `parts.join(sep)`. */
  function Join(parts: seq<string>, sep: string): string
  {
    if |parts| == 0 then ""
    else if |parts| == 1 then parts[0]
    else parts[0] + sep + Join(parts[1..], sep)
  }

  /** `s.split(sep)` for a one-character separator; always at least one piece. */
  function Split(s: string, sep: char): (r: seq<string>)
    ensures 0 < |r|
    decreases |s|
  {
    var head := BeforeFirst(s, sep);
    if |head| == |s| then [s] else [head] + Split(s[|head| + 1..], sep)
  }

  /** Splitting undoes joining when no piece contains the separator. */
  lemma {:induction false} SplitJoin(parts: seq<string>, sep: char)
    requires 0 < |parts|
    requires forall i :: 0 <= i < |parts| ==> sep !in parts[i]
    ensures Split(Join(parts, [sep]), sep) == parts
    decreases |parts|
  {
    if |parts| == 1 {
      BeforeFirstOf(parts[0], sep, "");
    } else {
      var rest := Join(parts[1..], [sep]);
      var s := parts[0] + [sep] + rest;
      BeforeFirstOf(parts[0], sep, rest);
      assert s[|parts[0]| + 1..] == rest;
      SplitJoin(parts[1..], sep);
      assert [parts[0]] + parts[1..] == parts;
    }
  }
}

=== FILE: wrappers.dfy ===
/** The optional-value datatype shared by the other modules. */
module Wrappers {

  /** A value that may be absent: JavaScript's `null`/`undefined` results. */
  datatype Option<+T> = None | Some(value: T)
}
